=== FILE: README.md ===
# gorest — a verified model of the key/value store and its two handlers

gorest is a small HTTP service that keeps JSON values under string keys in
memory. `PUT /keys` writes a batch `{"keys": {...}}`, `GET /keys` returns the
whole store, `GET /keys/{key}` returns one value and `DELETE /keys/{key}`
removes one key. Every answer is a JSON envelope `{"status", "error", "data"}`.

This project models that core as a sequential state machine:

- `JsonValue.Json` — the stored values, as a tagged variant (null, bool,
  number, string, array, object).
- `Storage` — the store `KeysStorage` (a `map<string, Json>`) with `AddKey`,
  `GetKey` and `DeleteKey` as pure functions. `GetKey` answers like Go's
  comma-ok map read: the bound value and `true`, or `JNull` (Go's nil
  `interface{}`) and `false`. The batch loop of the PUT handler is modelled
  three ways that are proved to agree: the overlay `Overlay` of the batch on
  the store, the loop `ApplyBatch` that picks keys in no particular order,
  and `ApplyInOrder`, which runs the loop in any given enumeration order.
- `Envelope` — the response `KeysResponse`, `OutputError`, the fixed
  envelope shape `WellFormed` and the members written on the wire (empty
  fields are omitted).
- `Handlers` — `AddOrViewAll` (route `/keys`) and `ViewOrDelete` (route
  `/keys/`) as pure functions from the store and the request to the new store
  and the envelope, plus `ExtractKey`, the capture of `/keys/(.*)`.
- `Properties` — facts about sequences of requests, and the sample session
  PUT / GET / GET missing / DELETE / GET.

Decoding the request body and encoding JSON are calls into Go's
`encoding/json`. They are parameters of the handlers: `parse: B -> Option<KeysRequest>`
for the body (of any type `B`; it is consulted only on PUT) and
`encode: Json -> Option<string>` for values, where `None` is a failure. The
whole store is encoded as the JSON object `JObject(keys)`.

The key is taken from `r.URL.String()` with the unanchored regexp
`/keys/(.*)`, so it is everything after the leftmost `/keys/` of the URL
text, including any further `/` and any query string (`/keys/a?x=1` gives the
key `a?x=1`), and an absolute-form URL `http://h/keys/a` gives `a`. That text
is the URL as Go writes it back, with the path percent-escaped and the query
as sent: a client asking for `GET /keys/a%20b` looks up the key `a%20b`, never
the key `a b` that a PUT may have stored. The model's URL parameter is this
text, and the model follows the code rather than a reading of the key as one
decoded path segment.

## Model

| member | source | states |
|---|---|---|
| Storage.GetKey | cmd/gorest/gorest.go:23-26 | the lookup reports found exactly when the key is bound, returns the bound value when found and Go's nil (JSON null) otherwise |
| Storage.GetKeyDeterminesStore | cmd/gorest/gorest.go:23-26 | two stores that answer every GetKey alike are equal, so the GetKey-based contracts below pin down the whole store |
| Storage.AddKey | cmd/gorest/gorest.go:17-21 | after the write the key is found with the new value; every other key answers GetKey as before |
| Storage.DeleteKey | cmd/gorest/gorest.go:28-30 | after the delete the key is not found; every other key answers GetKey as before; on an absent key the store is unchanged |
| Storage.AddKeyLastWriteWins | cmd/gorest/gorest.go:17-21 | two writes to one key equal the second write alone, so GetKey returns the last value |
| Storage.DeleteKeyIdempotent | cmd/gorest/gorest.go:28-30 | deleting a key twice leaves the same store as deleting it once |
| Storage.DeleteKeyUndoesAddKey | cmd/gorest/gorest.go:17-30 | delete after add equals delete alone; for a key that was absent it restores the original store |
| Storage.Overlay | cmd/gorest/gorest.go:69-71 | after a batch every batch key carries its batch value and every other key keeps its binding |
| Storage.ApplyInOrder | cmd/gorest/gorest.go:69-71 | running the AddKey loop over a sequence of batch keys leaves every visited key bound to its batch value and every other key as it was |
| Storage.ApplyInOrderIsOverlay | cmd/gorest/gorest.go:69-71 | every enumeration order that visits all batch keys yields the same store, the overlay of the batch |
| Storage.ApplyBatch | cmd/gorest/gorest.go:69-71 | the range loop, taking keys in an arbitrary order, ends with the overlay of the batch on the store |
| Envelope.OutputError | cmd/gorest/gorest.go:55-58 | the response becomes status "error" with the given message and keeps its data; for a known message on a response without data it is the well-formed failure envelope |
| Envelope.WireFields | cmd/gorest/gorest.go:32-36 | the JSON object always has "status", has "error" exactly when the error is non-empty, "data" exactly when data is non-empty, and no other member |
| Envelope.WireRoundTrip | cmd/gorest/gorest.go:32-36 | omitting empty members loses nothing: reading the members back gives the same envelope |
| Envelope.WireShape | cmd/gorest/gorest.go:32-36 | a well-formed envelope carries "error" on the wire exactly when its status is "error", and never both "error" and "data" |
| Handlers.KeyMatchFrom | cmd/gorest/gorest.go:89 | the search returns an occurrence of `/keys/` with none before it, the start of the regexp's leftmost match |
| Handlers.ExtractKey | cmd/gorest/gorest.go:89-95 | the key is the rest of the URL after the leftmost `/keys/`: the text before that occurrence, the prefix and the key give back the URL |
| Properties.ExtractKeyAtLeftmost | cmd/gorest/gorest.go:89-95 | wherever the leftmost `/keys/` stands, the key is exactly the text after it |
| Properties.KeyUrl | cmd/gorest/gorest.go:89 | for every key, the URL text `/keys/` + key has a match and yields that key back |
| Properties.KeyOfAbsoluteFormUrl | cmd/gorest/gorest.go:89-95 | on the absolute-form URL `http://h/keys/a` the unanchored regexp yields the key `a` |
| Handlers.AddOrViewAll | cmd/gorest/gorest.go:60-87 | well-formed envelope; an error leaves the store unchanged; only PUT changes the store; PUT with an undecodable body fails with "Wrong data"; a decoded PUT succeeds and leaves each batch key bound to its batch value and every other key as it was; GET succeeds exactly when the whole map encodes, with that encoding as data, else "Internal storage error"; any other method fails with "Wrong method" |
| Handlers.ViewOrDelete | cmd/gorest/gorest.go:90-128 | well-formed envelope; an error leaves the store unchanged; only DELETE changes the store; an empty key fails with "Key cannot be empty" and no change; GET fails with "Cannot find key" exactly when the key is absent, and for a present key succeeds with the encoded value or fails with "Internal storage error"; DELETE of a non-empty key succeeds, unbinds it and keeps every other key; any other method fails with "Wrong method" and no change |
| Properties.AbsoluteFormUrl | cmd/gorest/gorest.go:90-128 | every request on the absolute-form URL `http://h/keys/a` gets the same reply and store as on `/keys/a` |
| Properties.PutThenGetKey | cmd/gorest/gorest.go:63-72 | a value written by a successful PUT is what the next GET on the URL text `/keys/` + key returns (or the encoder failure), and that GET leaves the store unchanged |
| Properties.EscapedKeyIsNotDecoded | cmd/gorest/gorest.go:90-122 | after PUT stores the key "a b", GET on `/keys/a%20b` fails with "Cannot find key", and DELETE on it answers "ok" but leaves "a b" bound |
| Properties.PutIdempotent | cmd/gorest/gorest.go:63-72 | repeating a PUT with the same body gives the same store and response as doing it once |
| Properties.DeleteThenGetKey | cmd/gorest/gorest.go:114-122 | after DELETE of a non-empty key succeeds, a GET of that key fails with "Cannot find key" |
| Properties.DeleteRequestIdempotent | cmd/gorest/gorest.go:114-122 | repeating a DELETE request gives the same store and the same response as doing it once, whether or not the key was bound |
| Properties.GetRequestsAreRepeatable | cmd/gorest/gorest.go:73-113 | a GET on either route leaves a store on which the same GET gives the same reply |
| Properties.SampleSession | cmd/gorest/gorest.go:42-128 | from the empty store: PUT a=1,b="x" succeeds, GET a gives data "1", GET missing and GET a after DELETE a give "Cannot find key", and only b remains |

## Left out

- Locking: the `sync.Mutex` and the unsynchronised reads and deletes exist only for concurrent requests; the model applies requests one at a time, and each batch PUT as one step.
- JSON decoding (`parseRequest`) and encoding (`json.Marshal`) are library calls; they are function parameters that may fail, so "Internal storage error" is the encoder's failure case.
- Numbers: Go decodes JSON numbers to `float64`; the model keeps them as unbounded reals and does not model floating point.
- HTTP plumbing: route registration, `ListenAndServe`, closing the request body, and writing the marshalled envelope to the connection are I/O. The envelope's own marshalling cannot fail and is modelled only as its set of members (`WireFields`).
- Handlers.ViewOrDelete: requires, for GET and DELETE, a URL text that contains `/keys/`. The mux routes on the decoded path, so a request whose escaped URL text lacks `/keys/` (for instance `/ke%79s/a`) does reach this handler; the Go code then indexes a missing regexp match and panics, the server drops the connection, and no envelope is written. That case is not modelled.
- Handlers.ExtractKey: takes the whole rest of the URL after the leftmost `/keys/`; the regexp's `.` would stop at a newline, which the escaped URL text never contains.
- Properties.PutThenGetKey: holds for the URL text `/keys/` + key. A client reads a key back exactly when `/keys/` + key is the URL text of a request that reaches the handler. How Go parses, escapes and cleans a request URL is not modelled. For example, `a b` and `a"b` cannot be read back, while `a%20b` and `a?b` can (see also Properties.EscapedKeyIsNotDecoded).

=== FILE: envelope.dfy ===
/** The response envelope every request answers with: a status, an error
    message present only on failure, and a data string present only when the
    request returns a value. */
module Envelope {

  const StatusOk := "ok"
  const StatusError := "error"

  const WrongData := "Wrong data"
  const InternalStorageError := "Internal storage error"
  const WrongMethod := "Wrong method"
  const KeyCannotBeEmpty := "Key cannot be empty"
  const CannotFindKey := "Cannot find key"

  /** The messages a handler can report. */
  predicate IsMessage(message: string)
  {
    message in {WrongData, InternalStorageError, WrongMethod, KeyCannotBeEmpty, CannotFindKey}
  }

  /** An empty string stands for a field that is not set. */
  datatype KeysResponse = KeysResponse(status: string, error: string, data: string)

  /** The zero value each handler starts from. */
  const EmptyResponse := KeysResponse("", "", "")

  /** The envelope of a failed request. */
  function Failed(message: string): KeysResponse
  {
    KeysResponse(StatusError, message, "")
  }

  /** The envelope of a successful request carrying `data` ("" for none). */
  function Succeeded(data: string): KeysResponse
  {
    KeysResponse(StatusOk, "", data)
  }

  /** The fixed shape of every envelope: the status is one of two words, the
      error is set exactly on failure, data only on success. */
  predicate WellFormed(r: KeysResponse)
  {
    && (r.status == StatusOk || r.status == StatusError)
    && (r.error != "" <==> r.status == StatusError)
    && (r.data != "" ==> r.status == StatusOk)
  }

  /** Mark a response as failed with `message`; data already set is kept. */
  function OutputError(r: KeysResponse, message: string): (e: KeysResponse)
    ensures e.status == StatusError && e.error == message
    ensures e.data == r.data
    ensures IsMessage(message) && r.data == "" ==> WellFormed(e) && e == Failed(message)
  {
    r.(status := StatusError, error := message)
  }

  /** The members of the JSON object an envelope is written as: `status`
      always, `error` and `data` only when non-empty. */
  function WireFields(r: KeysResponse): (m: map<string, string>)
    ensures "status" in m && m["status"] == r.status
    ensures "error" in m <==> r.error != ""
    ensures "data" in m <==> r.data != ""
    ensures forall f :: f in m ==> f in {"status", "error", "data"}
  {
    map["status" := r.status]
    + (if r.error != "" then map["error" := r.error] else map[])
    + (if r.data != "" then map["data" := r.data] else map[])
  }

  /** Reading an envelope back from its members; an absent member is "". */
  function FromWire(m: map<string, string>): KeysResponse
  {
    KeysResponse(
      if "status" in m then m["status"] else "",
      if "error" in m then m["error"] else "",
      if "data" in m then m["data"] else "")
  }

  /** Leaving out empty members loses nothing. */
  lemma WireRoundTrip(r: KeysResponse)
    ensures FromWire(WireFields(r)) == r
  {
  }

  /** On the wire a well-formed envelope carries `error` exactly when its
      status is "error", and never carries both `error` and `data`. */
  lemma WireShape(r: KeysResponse)
    requires WellFormed(r)
    ensures "error" in WireFields(r) <==> WireFields(r)["status"] == StatusError
    ensures !("error" in WireFields(r) && "data" in WireFields(r))
  {
  }
}

=== FILE: handlers.dfy ===
/** The two request handlers of gorest as pure functions from the store and
    the request to the new store and the response envelope. Decoding the
    request body and encoding JSON are foreign library calls: they enter as
    function parameters that may fail (`None`). */
module Handlers {

  import opened Wrappers
  import opened JsonValue
  import opened Storage
  import opened Envelope

  /** The decoded body of a batch PUT: `{"keys": {<key>: <value>, ...}}`.
      A body without `keys` decodes to the empty batch. */
  datatype KeysRequest = KeysRequest(keys: map<string, Json>)

  /** What a handler leaves behind: the store after the request and the
      envelope written back to the client. */
  datatype Reply = Reply(storage: KeysStorage, response: KeysResponse)

  const KeysPrefix := "/keys/"

  /** `/keys/` occurs in `url` at position `i`. */
  predicate KeysAt(url: string, i: nat)
  {
    i + |KeysPrefix| <= |url| && url[i..i + |KeysPrefix|] == KeysPrefix
  }

  /** The URLs on which the unanchored regexp `/keys/(.*)` finds a match:
      those that contain `/keys/` somewhere. */
  predicate HasKeyMatch(url: string)
  {
    exists i: nat :: i <= |url| && KeysAt(url, i)
  }

  /** The leftmost occurrence of `/keys/` at or after `from`. */
  function KeyMatchFrom(url: string, from: nat): (i: nat)
    requires exists j: nat :: from <= j && KeysAt(url, j)
    ensures from <= i && KeysAt(url, i)
    ensures forall j: nat :: from <= j < i ==> !KeysAt(url, j)
    decreases |url| - from
  {
    if KeysAt(url, from) then from else KeyMatchFrom(url, from + 1)
  }

  /** The capture group of `/keys/(.*)`: the match starts at the leftmost
      `/keys/` and the group takes the whole rest of the URL, possibly empty. */
  function ExtractKey(url: string): (key: string)
    requires HasKeyMatch(url)
    ensures exists i: nat :: && KeysAt(url, i)
                             && (forall j: nat :: j < i ==> !KeysAt(url, j))
                             && url[..i] + KeysPrefix + key == url
  {
    var i := KeyMatchFrom(url, 0);
    url[i + |KeysPrefix|..]
  }

  /** The collection route `/keys`: PUT writes a batch, GET returns the whole
      store encoded as one JSON object, anything else is refused. */
  function AddOrViewAll<B>(s: KeysStorage, verb: string, body: B,
                           parse: B -> Option<KeysRequest>,
                           encode: Json -> Option<string>): (r: Reply)
    ensures WellFormed(r.response)
    ensures r.response.status == StatusError ==> r.storage == s
    ensures verb != "PUT" ==> r.storage == s
    ensures verb == "PUT" && parse(body).None? ==> r.response == Failed(WrongData)
    ensures verb == "PUT" && parse(body).Some? ==>
      var batch := parse(body).value.keys;
      && r.response == Succeeded("")
      && forall k :: GetKey(r.storage, k) == if k in batch then (batch[k], true) else GetKey(s, k)
    ensures verb == "GET" ==>
      (r.response.status == StatusOk <==> encode(JObject(s.keys)).Some?)
    ensures verb == "GET" && encode(JObject(s.keys)).Some? ==>
      r.response.data == encode(JObject(s.keys)).value
    ensures verb == "GET" && encode(JObject(s.keys)).None? ==>
      r.response == Failed(InternalStorageError)
    ensures verb != "PUT" && verb != "GET" ==> r.response == Failed(WrongMethod)
  {
    var response := EmptyResponse;
    if verb == "PUT" then
      match parse(body)
      case None => Reply(s, OutputError(response, WrongData))
      case Some(request) => Reply(Overlay(s, request.keys), response.(status := StatusOk))
    else if verb == "GET" then
      match encode(JObject(s.keys))
      case None => Reply(s, OutputError(response, InternalStorageError))
      case Some(data) => Reply(s, response.(status := StatusOk, data := data))
    else
      Reply(s, OutputError(response, WrongMethod))
  }

  /** The single-key route `/keys/{key}`: GET returns the encoded value of
      the key, DELETE removes it, anything else is refused. An empty key is
      refused before the store is consulted. */
  function ViewOrDelete(s: KeysStorage, verb: string, url: string,
                        encode: Json -> Option<string>): (r: Reply)
    requires verb == "GET" || verb == "DELETE" ==> HasKeyMatch(url)
    ensures WellFormed(r.response)
    ensures r.response.status == StatusError ==> r.storage == s
    ensures verb != "DELETE" ==> r.storage == s
    ensures (verb == "GET" || verb == "DELETE") && ExtractKey(url) == "" ==>
      r == Reply(s, Failed(KeyCannotBeEmpty))
    ensures verb == "GET" && ExtractKey(url) != "" ==>
      (r.response == Failed(CannotFindKey) <==> !GetKey(s, ExtractKey(url)).1)
    ensures verb == "GET" && ExtractKey(url) != "" && GetKey(s, ExtractKey(url)).1 ==>
      r.response == match encode(GetKey(s, ExtractKey(url)).0)
                    case Some(data) => Succeeded(data)
                    case None => Failed(InternalStorageError)
    ensures verb == "DELETE" && ExtractKey(url) != "" ==>
      && r.response == Succeeded("")
      && !GetKey(r.storage, ExtractKey(url)).1
      && forall k :: k != ExtractKey(url) ==> GetKey(r.storage, k) == GetKey(s, k)
    ensures verb != "GET" && verb != "DELETE" ==> r == Reply(s, Failed(WrongMethod))
  {
    var response := EmptyResponse;
    if verb == "GET" then
      var key := ExtractKey(url);
      if key == "" then Reply(s, OutputError(response, KeyCannotBeEmpty))
      else
        var (value, found) := GetKey(s, key);
        if !found then Reply(s, OutputError(response, CannotFindKey))
        else
          var okResponse := response.(status := StatusOk);
          match encode(value)
          case None => Reply(s, OutputError(okResponse, InternalStorageError))
          case Some(data) => Reply(s, okResponse.(data := data))
    else if verb == "DELETE" then
      var key := ExtractKey(url);
      if key == "" then Reply(s, OutputError(response, KeyCannotBeEmpty))
      else Reply(DeleteKey(s, key), response.(status := StatusOk))
    else
      Reply(s, OutputError(response, WrongMethod))
  }
}

=== FILE: json.dfy ===
/** The values the store holds. The Go program stores whatever
    `encoding/json` decodes into an `interface{}`; that is always one of the
    six JSON kinds below, so the model uses a tagged variant instead of a
    dynamic type. */
module JsonValue {

  datatype Json =
    | JNull
    | JBool(b: bool)
    | JNumber(n: real)
    | JString(s: string)
    | JArray(items: seq<Json>)
    | JObject(fields: map<string, Json>)
}

=== FILE: properties.dfy ===
/** Facts about sequences of requests: what one request leaves behind for
    the next. */
module Properties {

  import opened Wrappers
  import opened JsonValue
  import opened Storage
  import opened Envelope
  import opened Handlers

  /** The URL text `/keys/` followed by `key`. A client reads a key back
      exactly when this text is the URL text of a request that reaches the
      handler; for example `a b` and `a"b` cannot be read back, while `a%20b`
      and `a?b` can. */
  function KeyUrl(key: string): (url: string)
    ensures HasKeyMatch(url) && ExtractKey(url) == key
  {
    var url := KeysPrefix + key;
    assert KeysAt(url, 0);
    url
  }

  /** A value written by a successful batch PUT is what a GET of its key
      returns next. */
  lemma PutThenGetKey<B>(s: KeysStorage, body: B, parse: B -> Option<KeysRequest>,
                         encode: Json -> Option<string>, key: string)
    requires parse(body).Some? && key in parse(body).value.keys && key != ""
    ensures
      var put := AddOrViewAll(s, "PUT", body, parse, encode);
      var get := ViewOrDelete(put.storage, "GET", KeyUrl(key), encode);
      && put.response == Succeeded("")
      && get.storage == put.storage
      && get.response == match encode(parse(body).value.keys[key])
                         case Some(data) => Succeeded(data)
                         case None => Failed(InternalStorageError)
  {
  }

  /** Replaying a batch PUT changes nothing more: the store after two equal
      PUTs is the store after one. */
  lemma PutIdempotent<B>(s: KeysStorage, body: B, parse: B -> Option<KeysRequest>,
                         encode: Json -> Option<string>)
    ensures
      var once := AddOrViewAll(s, "PUT", body, parse, encode);
      var twice := AddOrViewAll(once.storage, "PUT", body, parse, encode);
      twice == once
  {
  }

  /** After a DELETE of a non-empty key, a GET of that key finds nothing. */
  lemma DeleteThenGetKey(s: KeysStorage, encode: Json -> Option<string>, key: string)
    requires key != ""
    ensures
      var del := ViewOrDelete(s, "DELETE", KeyUrl(key), encode);
      && del.response == Succeeded("")
      && ViewOrDelete(del.storage, "GET", KeyUrl(key), encode) == Reply(del.storage, Failed(CannotFindKey))
  {
  }

  /** DELETE is idempotent as a request: repeating it gives the same store
      and the same response, whether or not the key was bound. */
  lemma DeleteRequestIdempotent(s: KeysStorage, encode: Json -> Option<string>, url: string)
    requires HasKeyMatch(url)
    ensures
      var once := ViewOrDelete(s, "DELETE", url, encode);
      ViewOrDelete(once.storage, "DELETE", url, encode) == once
  {
  }

  /** Reads are repeatable: a GET on either route leaves a store on which the
      same GET answers the same way. */
  lemma GetRequestsAreRepeatable<B>(s: KeysStorage, body: B, parse: B -> Option<KeysRequest>,
                                    encode: Json -> Option<string>, url: string)
    requires HasKeyMatch(url)
    ensures
      var all := AddOrViewAll(s, "GET", body, parse, encode);
      AddOrViewAll(all.storage, "GET", body, parse, encode) == all
    ensures
      var one := ViewOrDelete(s, "GET", url, encode);
      ViewOrDelete(one.storage, "GET", url, encode) == one
  {
  }

  /** The sample session: starting from the empty store, PUT
      `{"keys":{"a":1,"b":"x"}}`, then GET `a`, GET `missing`, DELETE `a` and
      GET `a` again, with an encoder that writes the number 1 as "1". */
  lemma SampleSession<B>(body: B, parse: B -> Option<KeysRequest>, encode: Json -> Option<string>)
    requires parse(body) == Some(KeysRequest(map["a" := JNumber(1.0), "b" := JString("x")]))
    requires encode(JNumber(1.0)) == Some("1")
    ensures
      var r1 := AddOrViewAll(InitialStorage, "PUT", body, parse, encode);
      var r2 := ViewOrDelete(r1.storage, "GET", KeyUrl("a"), encode);
      var r3 := ViewOrDelete(r2.storage, "GET", KeyUrl("missing"), encode);
      var r4 := ViewOrDelete(r3.storage, "DELETE", KeyUrl("a"), encode);
      var r5 := ViewOrDelete(r4.storage, "GET", KeyUrl("a"), encode);
      && r1.response == Succeeded("")
      && r2.response == Succeeded("1")
      && r3.response == Failed(CannotFindKey)
      && r4.response == Succeeded("")
      && r5.response == Failed(CannotFindKey)
      && r5.storage.keys == map["b" := JString("x")]
  {
    var r1 := AddOrViewAll(InitialStorage, "PUT", body, parse, encode);
    var r4 := ViewOrDelete(r1.storage, "DELETE", KeyUrl("a"), encode);
    GetKeyDeterminesStore(r4.storage, KeysStorage(map["b" := JString("x")]));
  }

  /** The key is the rest of the URL after the leftmost `/keys/`, wherever
      that occurrence is. */
  lemma ExtractKeyAtLeftmost(url: string, i: nat)
    requires KeysAt(url, i)
    requires forall j: nat :: j < i ==> !KeysAt(url, j)
    ensures HasKeyMatch(url) && ExtractKey(url) == url[i + |KeysPrefix|..]
  {

  }

  /** The regexp is not anchored: on an absolute-form URL such as
      `http://h/keys/a` the key is what follows the first `/keys/`. */
  lemma KeyOfAbsoluteFormUrl()
    ensures HasKeyMatch("http://h/keys/a") && ExtractKey("http://h/keys/a") == "a"
  {
    var url := "http://h/keys/a";
    forall j: nat | j < 8 ensures !KeysAt(url, j) {
      assert url[j..j + |KeysPrefix|][1] == url[j + 1];
    }
    assert url[8..14] == KeysPrefix;
    ExtractKeyAtLeftmost(url, 8);
  }

  /** A request whose URL is written in absolute form acts like the same
      request on the bare path. */
  lemma AbsoluteFormUrl(s: KeysStorage, verb: string, encode: Json -> Option<string>)
    ensures HasKeyMatch("http://h/keys/a")
    ensures ViewOrDelete(s, verb, "http://h/keys/a", encode) == ViewOrDelete(s, verb, KeyUrl("a"), encode)
  {
    KeyOfAbsoluteFormUrl();
  }

  /** The key is the URL text as written on the request line, still
      percent-escaped. A key stored by PUT as "a b" is therefore out of reach
      of the single-key route: GET `/keys/a%20b` looks up "a%20b" and finds
      nothing, and DELETE `/keys/a%20b` answers "ok" but leaves "a b" bound. */
  lemma EscapedKeyIsNotDecoded<B>(body: B, parse: B -> Option<KeysRequest>, encode: Json -> Option<string>)
    requires parse(body) == Some(KeysRequest(map["a b" := JNumber(1.0)]))
    ensures
      var put := AddOrViewAll(InitialStorage, "PUT", body, parse, encode);
      var get := ViewOrDelete(put.storage, "GET", KeyUrl("a%20b"), encode);
      var del := ViewOrDelete(put.storage, "DELETE", KeyUrl("a%20b"), encode);
      && put.response == Succeeded("")
      && get.response == Failed(CannotFindKey)
      && del.response == Succeeded("")
      && GetKey(del.storage, "a b") == (JNumber(1.0), true)
  {
  }
}

=== FILE: storage.dfy ===
/** The key storage of gorest: a map from string keys to JSON values with
    three operations. The mutex that guards writes in the Go program only
    serialises concurrent requests; here the store is an immutable value and
    every operation returns the updated store. */
module Storage {

  import opened JsonValue

  datatype KeysStorage = KeysStorage(keys: map<string, Json>)

  /** The store the process starts with: an empty map. */
  const InitialStorage: KeysStorage := KeysStorage(map[])

  /** Lookup as Go's comma-ok map read: the bound value and true, or the zero
      value of `interface{}` (nil, which is JSON null) and false. */
  function GetKey(s: KeysStorage, key: string): (r: (Json, bool))
    ensures r.1 <==> key in s.keys
    ensures r.1 ==> r.0 == s.keys[key]
    ensures !r.1 ==> r.0 == JNull
  {
    if key in s.keys then (s.keys[key], true) else (JNull, false)
  }

  /** Lookups observe the whole store: two stores that answer every GetKey
      alike are the same store. */
  lemma GetKeyDeterminesStore(s: KeysStorage, t: KeysStorage)
    requires forall k :: GetKey(s, k) == GetKey(t, k)
    ensures s == t
  {
    assert s.keys.Keys == t.keys.Keys by {
      forall k | k in s.keys ensures k in t.keys {
        assert GetKey(s, k).1;
      }
      forall k | k in t.keys ensures k in s.keys {
        assert GetKey(t, k).1;
      }
    }
    forall k | k in s.keys ensures s.keys[k] == t.keys[k] {
      assert GetKey(s, k) == GetKey(t, k);
    }
  }

  /** Insert or overwrite one entry. */
  function AddKey(s: KeysStorage, key: string, value: Json): (t: KeysStorage)
    ensures GetKey(t, key) == (value, true)
    ensures forall k :: k != key ==> GetKey(t, k) == GetKey(s, k)
  {
    KeysStorage(s.keys[key := value])
  }

  /** Remove one entry; a key that is not bound leaves the store as it is. */
  function DeleteKey(s: KeysStorage, key: string): (t: KeysStorage)
    ensures !GetKey(t, key).1
    ensures forall k :: k != key ==> GetKey(t, k) == GetKey(s, k)
    ensures !GetKey(s, key).1 ==> t == s
  {
    KeysStorage(s.keys - {key})
  }

  /** The store after a whole batch has been written: every key of the batch
      carries its batch value, every other key keeps its binding. */
  function Overlay(s: KeysStorage, batch: map<string, Json>): (t: KeysStorage)
    ensures forall k :: GetKey(t, k) == if k in batch then (batch[k], true) else GetKey(s, k)
  {
    KeysStorage(s.keys + batch)
  }

  /** Writing a value twice under one key: the second write wins and the
      first leaves no trace. */
  lemma AddKeyLastWriteWins(s: KeysStorage, key: string, v1: Json, v2: Json)
    ensures AddKey(AddKey(s, key, v1), key, v2) == AddKey(s, key, v2)
    ensures GetKey(AddKey(AddKey(s, key, v1), key, v2), key) == (v2, true)
  {
  }

  /** Deleting twice is deleting once. */
  lemma DeleteKeyIdempotent(s: KeysStorage, key: string)
    ensures DeleteKey(DeleteKey(s, key), key) == DeleteKey(s, key)
  {
  }

  /** Deletion undoes an insertion of a key that was not bound before. */
  lemma DeleteKeyUndoesAddKey(s: KeysStorage, key: string, value: Json)
    ensures DeleteKey(AddKey(s, key, value), key) == DeleteKey(s, key)
    ensures !GetKey(s, key).1 ==> DeleteKey(AddKey(s, key, value), key) == s
  {
  }

  /** The batch restricted to the keys in `ks`. */
  function Restrict(batch: map<string, Json>, ks: set<string>): map<string, Json>
  {
    map k | k in batch && k in ks :: batch[k]
  }

  /** The batch loop of the PUT handler run in one particular enumeration
      order: one AddKey per visited key. Go leaves the order of a map range
      unspecified. */
  function ApplyInOrder(s: KeysStorage, batch: map<string, Json>, order: seq<string>): (t: KeysStorage)
    requires forall i :: 0 <= i < |order| ==> order[i] in batch
    ensures forall k :: GetKey(t, k) == if k in order then (batch[k], true) else GetKey(s, k)
    decreases |order|
  {
    if order == [] then s
    else ApplyInOrder(AddKey(s, order[0], batch[order[0]]), batch, order[1..])
  }

  /** Order independence of the batch loop: any order that visits every key
      of the batch produces the overlay of the batch on the store. */
  lemma ApplyInOrderIsOverlay(s: KeysStorage, batch: map<string, Json>, order: seq<string>)
    requires forall i :: 0 <= i < |order| ==> order[i] in batch
    requires forall k :: k in batch ==> k in order
    ensures ApplyInOrder(s, batch, order) == Overlay(s, batch)
  {

  }

  /** The batch loop as the Go program runs it: take the keys of the batch
      one at a time, in no particular order, and AddKey each. */
  method ApplyBatch(s: KeysStorage, batch: map<string, Json>) returns (t: KeysStorage)
    ensures t == Overlay(s, batch)
  {
    t := s;
    var pending := batch.Keys;
    while pending != {}
      invariant pending <= batch.Keys
      invariant t.keys == s.keys + Restrict(batch, batch.Keys - pending)
      decreases pending
    {
      var k :| k in pending;
      t := AddKey(t, k, batch[k]);
      pending := pending - {k};
    }
  }
}

=== FILE: wrappers.dfy ===
/** The optional-value datatype used for the steps the model leaves abstract
    (request decoding and JSON encoding), which may fail. */
module Wrappers {

  datatype Option<+T> = None | Some(value: T)
}
